=== FILE: README.md ===
# multi.js selection sync, modelled in Dafny

multi.js replaces a native `<select multiple>` with two clickable columns:
*available* options (filtered by a search field) and *chosen* options. The
native select stays the single source of truth: every click or keypress on a
row flips that option's `selected` flag, dispatches a `change` event on the
select, and the `change` listener re-renders both columns from the select.

This project models that synchronisation core with the DOM replaced by plain
data:

- `jsvalues.dfy` (`JsValues`): the JavaScript values the code coerces with `!!`.
- `text.dfy` (`Text`): ASCII `toLowerCase` and `indexOf`.
- `store.dfy` (`Store`): the select's ordered `Option`s, `set_options` as
  `Load`, and `toggle_option` as `Toggle`.
- `projection.dfy` (`Projection`): `refresh_select` as the pure function
  `Project` from the options and the search field to two columns of `Row`
  records, with an independent characterisation `IsColumn` of each column and
  a proof that it determines the column.
- `config.dfy` (`Config`): the settings `init` reads and their defaults.
- `control.dfy` (`Control`): the element as a `State`: the `init` guard,
  `setup`, the click, keypress, input and `change` listeners (`Step`), and
  the completion of an asynchronous option load (`Complete`). Counters record
  containers inserted, `change` listeners registered, refreshes run and
  `change` events dispatched.
- `scenarios.dfy` (`Scenarios`): the search, append and end-to-end examples
  worked through the model.

Interaction: a rendered row carries its option's index as an attribute; an
event target is modelled as `Target = Plain | Indexed(i)`. Fetching, parsing
and the caller's `transform` are one parameter, the `Fetch` outcome.

Behaviour of `src/multi.js` that is easy to get wrong, and that the model
follows:

- The chosen column follows store order (lines 96-122), so after choosing
  Red in the Red/Green/Blue example the chosen column is Red, Green, not
  Green, Red (`Scenarios.EndToEndExample`).
- A failed load does not reach the caller of `init`: `init` has already
  returned, and the rethrow in `.catch` rejects a promise nobody holds
  (lines 273-299). In the model a failed fetch, parse or transform is
  dropped and the element is left as it was. A payload that is not a list of
  descriptor objects (`Fetch.Malformed`) is dropped too, but only after a
  non-appending load has already emptied the select (lines 56-65).
- As written, a remote load never reaches `setup`, because line 78 throws
  (see "## Findings"). `Control.Complete`, and with it `Control.Apply` and
  `Control.Run`, model the load with line 78 corrected;
  `Control.CompleteAsWritten` models it as written.
- A second `init` while a load is in flight is not guarded, since the
  `data-multijs` flag is set only by `setup`. The model keeps every load in
  flight. With line 78 corrected, two such loads render two containers
  (`Control.AjaxInitTwiceRendersTwice`).
- `ajax: null` passes the `typeof ... === 'object'` test and then throws a
  TypeError on `.endpoint` (lines 273-274); `Init` returns `ThrewTypeError`.

## Model

| member | source | states |
|---|---|---|
| `Store.Load` | src/multi.js:54-80 | Replacing load: the store is the descriptors in order. Appending load: the old store is an unchanged prefix and the new options follow in descriptor order. Each option copies value and label and has `selected`/`disabled` equal to `!!` of the descriptor's member, so an omitted flag is false |
| `Store.LoadAppendTwice` | src/multi.js:56-76 | Two appending loads equal one appending load of both lists, so earlier indices are never disturbed |
| `Store.LoadReplaceForgets` | src/multi.js:56-58 | A replacing load does not depend on the previous store at all |
| `Store.Toggle` | src/multi.js:18-27 | An index with no option is a failed lookup; a disabled option is refused; otherwise exactly that option's `selected` is inverted, its other fields and every other option unchanged |
| `Store.ToggleTwiceRestores` | src/multi.js:25 | Toggling an enabled option twice restores the store |
| `Text.IndexOfFrom` | src/multi.js:125 | `indexOf` returns the first position at or after the start where the query occurs, or -1 exactly when it occurs nowhere |
| `Text.IndexOfFindsOccurrence` | src/multi.js:125 | `indexOf(...) > -1` holds exactly when the query occurs somewhere |
| `Projection.MatchesIffContains` | src/multi.js:125 | With a search field, an option matches exactly when its lower-cased label contains the lower-cased query; the empty query matches everything |
| `Projection.ColumnsCharacterised` | src/multi.js:96-129 | After `n` iterations of the refresh loop, each column holds exactly the rows of the admitted options among the first `n`, in strictly increasing index order, each row carrying its option's index, value, label and both markers |
| `Projection.Project` | src/multi.js:84-131 | `available` is exactly the options whose label matches the query and `chosen` exactly the selected options, both in store order, and every row in both columns is marked selected or disabled iff its option is |
| `Projection.ColumnUnique` | src/multi.js:96-129 | That characterisation determines a column: two row lists that both satisfy it are equal |
| `Projection.ChosenIgnoresQuery` | src/multi.js:115-122 | The query never filters the chosen column |
| `Projection.AvailableShowsAll` | src/multi.js:124-127 | Without a search field, or with an empty query, `available` lists every option in store order |
| `Projection.AvailableIgnoresSelection` | src/multi.js:124-127 | Which options are available depends only on labels and the query, not on selection or disabled state |
| `Projection.ToggleMovesBetweenColumns` | src/multi.js:115-127 | After a toggle of option `i`, `i` is chosen iff it was not before, every other option's membership of `chosen` is unchanged, and the available indices are unchanged |
| `Config.WithDefaults` | src/multi.js:240-243 | `enable_search` defaults to true and `search_placeholder` to "Search..." only when undefined; any explicit value, `false` included, is kept |
| `Config.WithDefaultsIdempotent` | src/multi.js:242-243 | Filling in defaults twice equals once, and afterwards neither member is undefined |
| `Config.SearchEnabledUnlessFalsy` | src/multi.js:146 | The search field is rendered iff `enable_search` is omitted or truthy |
| `Control.Setup` | src/multi.js:134-215 | Setup flags the select, inserts one container and one `change` listener, renders once, and the rendered columns are the projection of the options with an empty search field (or none when search is disabled) |
| `Control.Init` | src/multi.js:219-302 | `init` is a no-op on a flagged element or one that is not a multiple SELECT. `ajax: null` throws. A remote source defers setup to a pending load carrying the defaulted settings. Otherwise the element is set up at once: the options are kept, it is flagged, one container and one `change` listener are added, it refreshes once, and a search field (empty) is rendered iff `enable_search` is omitted or truthy, with the columns projected from the options |
| `Control.Step` | src/multi.js:152-214 | Before `setup` nothing listens, so no event changes anything. Once set up, a click on row `i`, or a space or enter keypress on it, of an enabled option in range inverts that option's selection, dispatches one `change` and refreshes once per listener. Typing in the search field replaces the query, re-filters the available column from the same options and refreshes once; with no search field typing changes nothing. A native `change` changes no option and re-renders once per listener. Any event keeps the flag, loads, containers and listeners, changes at most one option, only an enabled one and only its selection, dispatches a `change` exactly when it changes an option, and keeps the columns equal to the projection |
| `Control.Activate` | src/multi.js:18-27 | Activating row `i`: when option `i` exists and is enabled, exactly that option's selection is inverted, one `change` is dispatched, every listener refreshes and the columns are re-projected from the new options; otherwise nothing changes. It keeps the columns equal to the projection |
| `Control.InitTwiceIsNoOp` | src/multi.js:222-225 | After a synchronous `init`, a second `init` with any settings changes nothing |
| `Control.RunSingle` | src/multi.js:222-230 | Without remote loads, any interleaving of `init` calls and events leaves at most one container and one `change` listener, so each toggle refreshes once |
| `Control.RunConsistent` | src/multi.js:134-215 | Every sequence of inits, events and load completions, except one where a malformed payload lands on an already rendered element, keeps one listener per container and the rendered columns equal to the projection of the current options and query |
| `Control.MalformedLoadAfterRaceLeavesStaleColumns` | src/multi.js:56-65 | That exception is real: after the unguarded race, a malformed second payload empties the options while the container still shows them |
| `Control.ToggleStep` | src/multi.js:169-193 | In every rendered consistent state, loads in flight or several containers included, activating an enabled option's row inverts exactly that option, dispatches exactly one `change` and triggers one refresh per listener, after which the columns match the new store |
| `Control.IgnoredInteractions` | src/multi.js:170-193 | A click or keypress on a non-row or on a disabled option, and a keypress other than space or enter, changes nothing: no toggle, no `change` event |
| `Control.KeyPressActivates` | src/multi.js:182-185 | A keypress on a row reaches a toggle iff its key code is 32 or 13 |
| `Control.Complete` | src/multi.js:289-292 | With line 78 corrected, completing the `k`-th pending load removes exactly that entry. A failed load changes nothing else. A malformed payload empties a non-appending select. A list of descriptors replaces or appends the options per `!!ajax.append` and then sets up with that load's settings: flagged, one more container and listener, one refresh, a search field iff its `enable_search` is truthy, columns projected from the loaded options |
| `Control.CompleteAsWritten` | src/multi.js:78 | As written, a successful load adds the options but never reaches setup |
| `Control.AjaxInitTwiceRendersTwice` | src/multi.js:273-299 | Two `init` calls before the first load completes leave two containers and two `change` listeners |
| `Control.AjaxLoadNeverSetsUpAsWritten` | src/multi.js:289-291 | As written, `init` with a remote source and a successful fetch leaves the select unflagged with nothing rendered |
| `Control.AjaxLoadSetsUp` | src/multi.js:289-292 | Corrected, `init` with a remote source and a successful fetch ends with the loaded options rendered in one container |
| `Scenarios.SearchFilterExample` | src/multi.js:124-127 | Searching "an" among Apple, Banana, Grape leaves only Banana available and nothing chosen |
| `Scenarios.AppendExample` | src/multi.js:56-76 | Loading A then appending B gives A, B; loading B without append gives B alone |
| `Scenarios.EndToEndExample` | src/multi.js:96-127 | Red, selected Green, disabled Blue: Green chosen, all three available; clicking Red chooses Red, Green with one `change`; clicking Blue changes nothing |

## Left out

- Presentation: creating and styling elements, `innerHTML`, the wrapper's
  placement after the select, hiding the select, the placeholder attribute
  (lines 103-107, 137-205). Rows are `Row` records; the placeholder default
  is modelled in `Config.WithDefaults` but not stored in the state.
- `fetch`, JSON parsing, the caller's `transform` and the promise chain
  (lines 276-295): network, asynchrony and foreign code. Their outcome is the
  `Fetch` parameter of `Control.Complete`.
- Event-object mechanics: `createEvent`, `dispatchEvent`, `preventDefault`
  (lines 11-15, 188). A dispatched `change` is a counter.
- The jQuery wrapper (lines 310-329): optional glue that calls `init` per element.
- Full Unicode case folding: `toLowerCase` is modelled on ASCII letters only.
- Number values are integers plus NaN; fractional numbers are not represented.
- A descriptor without `value`, and labels containing line breaks: the DOM's
  string conversions and `innerText` line-break handling are not modelled, so
  value and label are copied as strings.
- `settings` passed as `null` (it throws on the first member access), and the
  fact that `init` writes the defaults into the caller's settings object.
- With more than one container (the unguarded race) the state keeps only the
  latest container's search field and columns; the earlier container, which
  is never refreshed again, is counted but not modelled.
- A select with no parent node: `setup` flags it (line 138) and then throws
  at `insertBefore` (line 205), before the first refresh and the `change`
  listener, so later `init` calls are no-ops on a control that was never
  rendered. `Control.Setup` assumes the select is in the document.
- Control.RunConsistent: does not cover a run in which a malformed payload
  arrives after the element was rendered, because there the source leaves
  the columns stale (`Control.MalformedLoadAfterRaceLeavesStaleColumns`).
- Other code editing the select's options directly is not an event of the
  model; a `change` dispatched by other code is (`NativeChange`).

## Findings

| source | as written | input that shows it | evidently intended | confidence | as-written member | corrected member |
|---|---|---|---|---|---|---|
| src/multi.js:78 | `set_options` returns `select`, a name bound nowhere in its scope (its parameter is `$select`), so the call throws a ReferenceError after appending the options; `setup` never runs and the control is never initialised on the remote-source path | `init` on an unflagged multiple select with `ajax: {endpoint: "/options"}` and a fetch that succeeds, on a page with no global named `select` | return `$select`, so the loaded select is set up | high; not executed | `Control.AjaxLoadNeverSetsUpAsWritten` | `Control.AjaxLoadSetsUp` |

=== FILE: config.dfy ===
/** The settings `init` accepts and the defaults it fills in. */
module Config {
  import opened JsValues

  /** Placeholder text of the search field when none is given. */
  const DefaultPlaceholder: string := "Search..."

  /** The `ajax` setting, as `init` tells its shapes apart: anything that is
      not an object (`NoAjax`), `null` (whose `typeof` is also `'object'`),
      or an object with an `endpoint` and an `append` member. The caller's
      `transform` function is not part of this model. */
  datatype Ajax = NoAjax | NullAjax | AjaxObject(endpoint: JsValue, append: JsValue)

  /** The settings object; a member left out is `Undefined`. */
  datatype Settings = Settings(enableSearch: JsValue, searchPlaceholder: JsValue, ajax: Ajax)

  /** The settings `init` uses when the caller passes none: `{}`. */
  const NoSettings := Settings(Undefined, Undefined, NoAjax)

  /** The defaults of `init`: a member is replaced only when it is
      `undefined`; every explicit value, `false` and `null` included, is kept. */
  function WithDefaults(s: Settings): (r: Settings)
    ensures r.enableSearch == (if s.enableSearch.Undefined? then Bool(true) else s.enableSearch)
    ensures r.searchPlaceholder == (if s.searchPlaceholder.Undefined? then Str(DefaultPlaceholder) else s.searchPlaceholder)
    ensures r.ajax == s.ajax
  {
    s.(enableSearch := if s.enableSearch.Undefined? then Bool(true) else s.enableSearch,
       searchPlaceholder := if s.searchPlaceholder.Undefined? then Str(DefaultPlaceholder) else s.searchPlaceholder)
  }

  /** Filling in defaults twice is filling them in once, and afterwards no
      member is undefined. */
  lemma WithDefaultsIdempotent(s: Settings)
    ensures WithDefaults(WithDefaults(s)) == WithDefaults(s)
    ensures !WithDefaults(s).enableSearch.Undefined? && !WithDefaults(s).searchPlaceholder.Undefined?
  {
  }

  /** The search field is rendered unless `enable_search` is given a falsy value. */
  lemma SearchEnabledUnlessFalsy(s: Settings)
    ensures Truthy(WithDefaults(s).enableSearch) <==> s.enableSearch.Undefined? || Truthy(s.enableSearch)
  {
  }

  /** Whether `init` takes the asynchronous path: `typeof ajax === 'object'`
      and `typeof ajax.endpoint === 'string'`. */
  predicate RemoteSource(a: Ajax) {
    a.AjaxObject? && a.endpoint.Str?
  }

  /** `!!settings.ajax.append`, read when the fetched options are loaded. */
  predicate AppendFetched(a: Ajax) {
    a.AjaxObject? && Truthy(a.append)
  }
}

=== FILE: control.dfy ===
/** One multi.js instance as a state machine over the native select: the
    `init` guard, `setup`, the click/keypress/input/change listeners, and the
    completion of an asynchronous option load. */
module Control {
  import opened JsValues
  import opened Store
  import opened Projection
  import opened Config

  /** Key codes that activate a row. */
  const SpaceKey := 32
  const EnterKey := 13

  /** The element an event was dispatched on, seen through its `multi-index`
      attribute: rows carry their option's index, nothing else carries one. */
  datatype Target = Plain | Indexed(index: nat)

  /** The events the instance listens to. */
  datatype Event =
    | Click(target: Target)                  // click inside the wrapper
    | KeyPress(target: Target, keyCode: int) // keypress inside the wrapper
    | SearchInput(text: string)              // input on the search field: its new value
    | NativeChange                           // a `change` dispatched on the select by other code

  /** The outcome of fetching, parsing and transforming the remote option
      list: a list of descriptors; a payload that is not one (an object, or a
      list holding `null`), on which `set_options` throws after it has
      emptied a non-appending select but before appending anything; or a
      failure of the fetch, the parse or the transform. */
  datatype Fetch = Fetched(descriptors: seq<Descriptor>) | Malformed | FetchFailed

  /** The native select and everything multi.js attached to it.
      `flagged` is the `data-multijs` attribute, `pending` the settings of
      every load still in flight, `wrappers` the containers inserted after
      the select, `changeListeners` the refresh listeners on its `change`
      event, `search` and `view` the search field and columns of the latest
      container, `refreshes` how many refreshes ran and `changeEvents` how
      many `change` events the instance dispatched. */
  datatype State = State(
    nodeName: string,
    multiple: bool,
    flagged: bool,
    options: seq<Option>,
    pending: seq<Settings>,
    wrappers: nat,
    changeListeners: nat,
    search: SearchField,
    view: View,
    refreshes: nat,
    changeEvents: nat)

  /** A select in the page before any `init`. */
  function Page(nodeName: string, multiple: bool, options: seq<Option>): State {
    State(nodeName, multiple, false, options, [], 0, 0, NoSearchField, View([], []), 0, 0)
  }

  /** What `init` did: it returned (the element possibly changed), or it
      threw a TypeError, leaving the element as it was. */
  datatype InitResult = Returned(state: State) | ThrewTypeError

  predicate IsMultiSelect(st: State) {
    st.nodeName == "SELECT" && st.multiple
  }

  /** `setup`: flag the select, insert a container with a search field when
      `enable_search` is truthy, render it once, and listen for `change`. */
  function Setup(st: State, s: Settings): (r: State)
    ensures r.flagged && r.options == st.options && r.pending == st.pending
    ensures r.wrappers == st.wrappers + 1 && r.changeListeners == st.changeListeners + 1
    ensures r.search == (if Truthy(s.enableSearch) then SearchField("") else NoSearchField)
    ensures r.view == Project(st.options, r.search)
    ensures r.refreshes == st.refreshes + 1 && r.changeEvents == st.changeEvents
  {
    var search := if Truthy(s.enableSearch) then SearchField("") else NoSearchField;
    st.(flagged := true,
        wrappers := st.wrappers + 1,
        changeListeners := st.changeListeners + 1,
        search := search,
        view := Project(st.options, search),
        refreshes := st.refreshes + 1)
  }

  /** `init`: a no-op on a flagged element or one that is not a multiple
      SELECT; otherwise fill in the defaults and either start loading the
      remote options or set up at once. */
  function Init(st: State, settings: Settings): (r: InitResult)
    ensures st.flagged || !IsMultiSelect(st) ==> r == Returned(st)
    ensures r.ThrewTypeError? <==> !st.flagged && IsMultiSelect(st) && settings.ajax.NullAjax?
    ensures !st.flagged && IsMultiSelect(st) && RemoteSource(settings.ajax) ==>
      r == Returned(st.(pending := st.pending + [WithDefaults(settings)]))
    ensures !st.flagged && IsMultiSelect(st) && !settings.ajax.NullAjax? && !RemoteSource(settings.ajax) ==>
      && r.Returned?
      && r.state.flagged && IsMultiSelect(r.state)
      && r.state.options == st.options && r.state.pending == st.pending
      && r.state.wrappers == st.wrappers + 1 && r.state.changeListeners == st.changeListeners + 1
      && r.state.search ==
           (if settings.enableSearch.Undefined? || Truthy(settings.enableSearch) then SearchField("") else NoSearchField)
      && r.state.view == Project(st.options, r.state.search)
      && r.state.refreshes == st.refreshes + 1 && r.state.changeEvents == st.changeEvents
  {
    if st.flagged || !IsMultiSelect(st) then Returned(st)
    else
      var s := WithDefaults(settings);
      if s.ajax.NullAjax? then ThrewTypeError
      else if RemoteSource(s.ajax) then Returned(st.(pending := st.pending + [s]))
      else Returned(Setup(st, s))
  }

  /** The option a click or keypress asks to toggle: a click on any element
      carrying an index, a keypress only for space or enter. */
  function ToggleTarget(e: Event): Target {
    match e
    case Click(t) => t
    case KeyPress(t, code) => if code == SpaceKey || code == EnterKey then t else Plain
    case SearchInput(_) => Plain
    case NativeChange => Plain
  }

  /** A `change` on the select: every refresh listener re-renders the latest
      container. */
  function Notify(st: State): State {
    if st.changeListeners == 0 then st
    else st.(view := Project(st.options, st.search), refreshes := st.refreshes + st.changeListeners)
  }

  /** What an event may do to the element: keep its flag, its loads, its
      containers and its listeners; change at most one option, only an
      enabled one and only its selection; and dispatch a `change` exactly
      when it changes an option. */
  ghost predicate EventEffect(st: State, r: State) {
    && r.flagged == st.flagged && r.pending == st.pending
    && r.wrappers == st.wrappers && r.changeListeners == st.changeListeners
    && |r.options| == |st.options|
    && (forall j :: 0 <= j < |st.options| ==> r.options[j].(selected := st.options[j].selected) == st.options[j])
    && (forall j :: 0 <= j < |st.options| && r.options[j] != st.options[j] ==> !st.options[j].disabled)
    && (forall j, l :: 0 <= j < l < |st.options| ==> r.options[j] == st.options[j] || r.options[l] == st.options[l])
    && r.changeEvents == (if r.options == st.options then st.changeEvents else st.changeEvents + 1)
  }

  /** The click and keypress listeners once they have found a row: toggle
      its option, and on success dispatch `change`, which refreshes. */
  function Activate(st: State, i: nat): (r: State)
    ensures EventEffect(st, r)
    ensures Consistent(st) ==> Consistent(r)
    ensures Toggle(st.options, i).Flipped? ==>
      && r.options == Toggle(st.options, i).store
      && r.search == st.search
      && r.changeEvents == st.changeEvents + 1
      && r.refreshes == st.refreshes + st.changeListeners
      && (st.changeListeners > 0 ==> r.view == Project(r.options, r.search))
    ensures !Toggle(st.options, i).Flipped? ==> r == st
  {
    match Toggle(st.options, i)
    case Flipped(store) =>
      OnlySelectionOfOneEnabledOption(st.options, i);
      Notify(st.(options := store, changeEvents := st.changeEvents + 1))
    case Refused => st
    case NoSuchOption => st
  }

  /** Delivering one event. Before `setup` nothing is rendered, so only a
      native change can arrive, and nothing listens to it. */
  function Step(st: State, e: Event): (r: State)
    ensures EventEffect(st, r)
    ensures Consistent(st) ==> Consistent(r)
    ensures st.wrappers == 0 ==> r == st
    ensures st.wrappers > 0 && e.SearchInput? && st.search.SearchField? ==>
      && r.options == st.options && r.changeEvents == st.changeEvents
      && r.search == SearchField(e.text)
      && r.view == Project(st.options, r.search)
      && r.refreshes == st.refreshes + 1
    ensures e.SearchInput? && st.search.NoSearchField? ==> r == st
    ensures st.wrappers > 0 && ToggleTarget(e).Indexed? && Toggle(st.options, ToggleTarget(e).index).Flipped? ==>
      && r.options == Toggle(st.options, ToggleTarget(e).index).store
      && r.changeEvents == st.changeEvents + 1
      && r.refreshes == st.refreshes + st.changeListeners
    ensures e.NativeChange? ==>
      && r.options == st.options && r.search == st.search && r.changeEvents == st.changeEvents
      && r.refreshes == (if st.wrappers == 0 then st.refreshes else st.refreshes + st.changeListeners)
  {
    if st.wrappers == 0 then st
    else match e
      case SearchInput(text) =>
        if st.search.NoSearchField? then st
        else st.(search := SearchField(text),
                 view := Project(st.options, SearchField(text)),
                 refreshes := st.refreshes + 1)
      case NativeChange => Notify(st)
      case _ =>
        match ToggleTarget(e)
        case Plain => st
        case Indexed(i) => Activate(st, i)
  }

  /** A successful toggle changes only the selection of one enabled option. */
  lemma OnlySelectionOfOneEnabledOption(store: seq<Option>, i: nat)
    requires Toggle(store, i).Flipped?
    ensures var after := Toggle(store, i).store;
            && |after| == |store| && after != store
            && (forall j :: 0 <= j < |store| ==> after[j].(selected := store[j].selected) == store[j])
            && (forall j :: 0 <= j < |store| && after[j] != store[j] ==> !store[j].disabled)
            && (forall j, l :: 0 <= j < l < |store| ==> after[j] == store[j] || after[l] == store[l])
  {
    assert Toggle(store, i).store[i] != store[i];
  }

  /** The `k`-th pending load completes, with line 78 of `set_options`
      returning the select it was given: a failed load is dropped; a
      malformed payload is dropped after a non-appending load has emptied the
      select; a list of descriptors is loaded and `setup` runs with that
      load's settings. */
  function Complete(st: State, k: nat, fetch: Fetch): (r: State)
    requires k < |st.pending|
    ensures r.pending == st.pending[..k] + st.pending[k + 1..]
    ensures fetch.FetchFailed? ==> r == st.(pending := r.pending)
    ensures fetch.Malformed? ==>
      r == st.(pending := r.pending, options := if AppendFetched(st.pending[k].ajax) then st.options else [])
    ensures fetch.Fetched? ==>
      && r.options == Load(st.options, fetch.descriptors, AppendFetched(st.pending[k].ajax))
      && r.flagged
      && r.wrappers == st.wrappers + 1 && r.changeListeners == st.changeListeners + 1
      && r.search == (if Truthy(st.pending[k].enableSearch) then SearchField("") else NoSearchField)
      && r.view == Project(r.options, r.search)
      && r.refreshes == st.refreshes + 1 && r.changeEvents == st.changeEvents
  {
    var s := st.pending[k];
    var rest := st.pending[..k] + st.pending[k + 1..];
    match fetch
    case FetchFailed => st.(pending := rest)
    case Malformed => st.(pending := rest, options := if AppendFetched(s.ajax) then st.options else [])
    case Fetched(descriptors) =>
      Setup(st.(pending := rest, options := Load(st.options, descriptors, AppendFetched(s.ajax))), s)
  }

  /** The same completion as the source writes it: `set_options` appends the
      options and then returns the unbound name `select`, so the load ends in
      a ReferenceError and `setup` never runs. */
  function CompleteAsWritten(st: State, k: nat, fetch: Fetch): (r: State)
    requires k < |st.pending|
    ensures r.pending == st.pending[..k] + st.pending[k + 1..]
    ensures r.flagged == st.flagged && r.wrappers == st.wrappers && r.view == st.view
    ensures fetch.Fetched? ==> r.options == Load(st.options, fetch.descriptors, AppendFetched(st.pending[k].ajax))
  {
    var s := st.pending[k];
    var rest := st.pending[..k] + st.pending[k + 1..];
    match fetch
    case FetchFailed => st.(pending := rest)
    case Malformed => st.(pending := rest, options := if AppendFetched(s.ajax) then st.options else [])
    case Fetched(descriptors) => st.(pending := rest, options := Load(st.options, descriptors, AppendFetched(s.ajax)))
  }

  /** Anything that can happen to the element. */
  datatype Action = Initialize(settings: Settings) | Deliver(event: Event) | Resolve(k: nat, fetch: Fetch)

  function Apply(st: State, a: Action): State {
    match a
    case Initialize(settings) =>
      (match Init(st, settings)
       case Returned(st') => st'
       case ThrewTypeError => st)
    case Deliver(e) => Step(st, e)
    case Resolve(k, fetch) => if k < |st.pending| then Complete(st, k, fetch) else st
  }

  function Run(st: State, actions: seq<Action>): State
    decreases |actions|
  {
    if actions == [] then st else Run(Apply(st, actions[0]), actions[1..])
  }

  /** Every container is listened to once, and whenever something is
      rendered the select is flagged and the columns are the projection of
      the current options and query. */
  ghost predicate Consistent(st: State) {
    && st.wrappers == st.changeListeners
    && (st.wrappers > 0 ==> st.flagged && st.view == Project(st.options, st.search))
  }

  /** No load in flight and at most one container. */
  ghost predicate Single(st: State) {
    Consistent(st) && st.pending == [] && st.wrappers <= 1
  }

  /** A malformed payload arriving after the element was rendered (only
      possible through a second `init` during a load) changes the options
      without a refresh. */
  predicate Stales(st: State, a: Action) {
    a.Resolve? && a.fetch.Malformed? && st.wrappers > 0
  }

  /** No action of the run stales the rendered columns. */
  predicate NeverStales(st: State, actions: seq<Action>)
    decreases |actions|
  {
    actions == [] || (!Stales(st, actions[0]) && NeverStales(Apply(st, actions[0]), actions[1..]))
  }

  lemma ApplyConsistent(st: State, a: Action)
    requires Consistent(st)
    requires !Stales(st, a)
    ensures Consistent(Apply(st, a))
  {
  }

  /** Every sequence of inits, events and load completions that does not
      stale the columns keeps them in step with the select. */
  lemma {:induction false} RunConsistent(st: State, actions: seq<Action>)
    requires Consistent(st)
    requires NeverStales(st, actions)
    ensures Consistent(Run(st, actions))
    decreases |actions|
  {
    if actions != [] {
      ApplyConsistent(st, actions[0]);
      RunConsistent(Apply(st, actions[0]), actions[1..]);
    }
  }

  /** Why the exception is needed: after the unguarded race, a malformed
      second payload empties the options while the container still shows
      them. */
  lemma MalformedLoadAfterRaceLeavesStaleColumns(st: State, s: Settings, first: seq<Descriptor>)
    requires !st.flagged && IsMultiSelect(st) && st.pending == [] && st.wrappers == 0 && st.changeListeners == 0
    requires RemoteSource(s.ajax) && !Truthy(s.ajax.append)
    requires |first| > 0
    ensures var raced := Apply(Apply(Apply(st, Initialize(s)), Initialize(s)), Resolve(0, Fetched(first)));
            var r := Apply(raced, Resolve(0, Malformed));
            && Consistent(raced)
            && r.wrappers == 1 && r.options == [] && !Consistent(r)
  {
    var raced := Apply(Apply(Apply(st, Initialize(s)), Initialize(s)), Resolve(0, Fetched(first)));
    assert |raced.options| == |first|;
    var r := Apply(raced, Resolve(0, Malformed));
    assert r.view == raced.view;
    assert |raced.view.available| == |first| by {
      AvailableShowsAll(raced.options, raced.search);
    }
    assert Project([], r.search).available == [];
  }

  lemma ApplySingle(st: State, a: Action)
    requires Single(st)
    requires a.Initialize? ==> !RemoteSource(a.settings.ajax)
    ensures Single(Apply(st, a))
  {
  }

  /** Without remote loads, any number of `init` calls interleaved with any
      events leaves at most one container and one change listener. */
  lemma {:induction false} RunSingle(st: State, actions: seq<Action>)
    requires Single(st)
    requires forall k :: 0 <= k < |actions| && actions[k].Initialize? ==> !RemoteSource(actions[k].settings.ajax)
    ensures Single(Run(st, actions))
    decreases |actions|
  {
    if actions != [] {
      ApplySingle(st, actions[0]);
      assert forall k :: 0 <= k < |actions| - 1 ==> actions[1..][k] == actions[k + 1];
      RunSingle(Apply(st, actions[0]), actions[1..]);
    }
  }

  /** A second `init` on an initialised element does nothing. */
  lemma InitTwiceIsNoOp(st: State, first: Settings, second: Settings)
    requires Init(st, first).Returned?
    requires !RemoteSource(first.ajax)
    ensures var once := Init(st, first).state;
            Init(once, second) == Returned(once)
  {
  }

  /** A toggle of an enabled option on a set-up instance inverts exactly that
      option's selection, dispatches one `change`, and refreshes once. */
  lemma ToggleStep(st: State, e: Event, i: nat)
    requires Consistent(st) && st.wrappers > 0
    requires ToggleTarget(e) == Indexed(i)
    requires i < |st.options| && !st.options[i].disabled
    ensures var r := Step(st, e);
            && |r.options| == |st.options|
            && r.options[i].selected == !st.options[i].selected
            && (forall j :: 0 <= j < |st.options| && j != i ==> r.options[j] == st.options[j])
            && r.changeEvents == st.changeEvents + 1
            && r.refreshes == st.refreshes + st.changeListeners
            && r.view == Project(r.options, st.search)
  {
  }

  /** A click or keypress on a disabled option, or on anything that is not a
      row, and a keypress of any key but space or enter, change nothing. */
  lemma IgnoredInteractions(st: State, e: Event)
    requires e.Click? || e.KeyPress?
    requires || ToggleTarget(e).Plain?
             || (ToggleTarget(e).index < |st.options| && st.options[ToggleTarget(e).index].disabled)
    ensures Step(st, e) == st
  {
  }

  /** Only space (32) and enter (13) activate a row from the keyboard. */
  lemma KeyPressActivates(t: Target, code: int)
    requires t.Indexed?
    ensures ToggleTarget(KeyPress(t, code)).Indexed? <==> code == 32 || code == 13
  {
  }

  /** The open race: a second `init` while the first load is in flight is
      not guarded, so two completed loads leave two containers and two
      `change` listeners. */
  lemma AjaxInitTwiceRendersTwice(st: State, s: Settings, first: seq<Descriptor>, second: seq<Descriptor>)
    requires !st.flagged && IsMultiSelect(st) && st.pending == [] && st.wrappers == 0 && st.changeListeners == 0
    requires RemoteSource(s.ajax)
    ensures var r := Run(st, [Initialize(s), Initialize(s), Resolve(0, Fetched(first)), Resolve(0, Fetched(second))]);
            r.wrappers == 2 && r.changeListeners == 2 && r.pending == []
  {
    var a1, a2, a3, a4 := Initialize(s), Initialize(s), Resolve(0, Fetched(first)), Resolve(0, Fetched(second));
    var s1 := Apply(st, a1);
    var s2 := Apply(s1, a2);
    assert s2.pending == [WithDefaults(s), WithDefaults(s)] && s2.wrappers == 0 && s2.changeListeners == 0;
    var s3 := Apply(s2, a3);
    assert s3.wrappers == 1 && s3.changeListeners == 1 && |s3.pending| == 1;
    var s4 := Apply(s3, a4);
    assert s4.wrappers == 2 && s4.changeListeners == 2 && s4.pending == [];
    assert Run(s3, [a4]) == s4 by {
      assert [a4][1..] == [];
    }
    assert Run(s2, [a3, a4]) == Run(s3, [a4]) by {
      assert [a3, a4][1..] == [a4];
    }
    assert Run(s1, [a2, a3, a4]) == Run(s2, [a3, a4]) by {
      assert [a2, a3, a4][1..] == [a3, a4];
    }
    assert Run(st, [a1, a2, a3, a4]) == Run(s1, [a2, a3, a4]) by {
      assert [a1, a2, a3, a4][1..] == [a2, a3, a4];
    }
  }

  /** As written, a remote load never initialises the control: the options
      are loaded but the select stays unflagged and nothing is rendered. */
  lemma AjaxLoadNeverSetsUpAsWritten(st: State, s: Settings, descriptors: seq<Descriptor>)
    requires !st.flagged && IsMultiSelect(st) && st.pending == [] && st.wrappers == 0
    requires RemoteSource(s.ajax)
    ensures var started := Init(st, s).state;
            var r := CompleteAsWritten(started, 0, Fetched(descriptors));
            && r.options == Load(st.options, descriptors, AppendFetched(s.ajax))
            && !r.flagged && r.wrappers == 0 && r.pending == []
  {
  }

  /** Corrected, a remote load ends with the loaded options rendered once. */
  lemma AjaxLoadSetsUp(st: State, s: Settings, descriptors: seq<Descriptor>)
    requires !st.flagged && IsMultiSelect(st) && st.pending == [] && st.wrappers == 0
    requires RemoteSource(s.ajax)
    ensures var started := Init(st, s).state;
            var r := Complete(started, 0, Fetched(descriptors));
            && r.options == Load(st.options, descriptors, AppendFetched(s.ajax))
            && r.flagged && r.wrappers == 1 && r.pending == []
            && r.view == Project(r.options, r.search)
  {
  }
}

=== FILE: jsvalues.dfy ===
/** The few JavaScript values the control inspects, and the `!!v` coercion it applies to them. */
module JsValues {

  /** A JavaScript value as far as `typeof` and truthiness tell values apart.
      Numbers are modelled by their integer value plus NaN; `Obj` stands for
      every object, array and function. */
  datatype JsValue =
    | Undefined
    | Null
    | Bool(b: bool)
    | Num(n: int)
    | NaN
    | Str(s: string)
    | Obj

  /** `!!v`: JavaScript truthiness. */
  predicate Truthy(v: JsValue) {
    match v
    case Undefined => false
    case Null => false
    case Bool(b) => b
    case Num(n) => n != 0
    case NaN => false
    case Str(s) => s != ""
    case Obj => true
  }
}

=== FILE: projection.dfy ===
/** The projection `refresh_select` renders: from the store and the search
    field, the `available` column (options whose text matches the query) and
    the `chosen` column (selected options), both in store order. */
module Projection {
  import opened Store
  import opened Text

  /** One rendered row: the `multi-index` and `data-value` attributes, the
      text, and the `selected` and `disabled` class markers. */
  datatype Row = Row(index: nat, value: string, text: string, selected: bool, disabled: bool)

  /** The two columns of one refresh. */
  datatype View = View(available: seq<Row>, chosen: seq<Row>)

  /** The search input: absent when search is disabled, otherwise its current text. */
  datatype SearchField = NoSearchField | SearchField(query: string)

  /** The row rendered for the option at index `i`. Both markers are set
      before the row is cloned, so the row is the same in both columns. */
  function RowAt(store: seq<Option>, i: nat): Row
    requires i < |store|
  {
    Row(i, store[i].value, store[i].text, store[i].selected, store[i].disabled)
  }

  /** The search filter: no search field, an empty query, or the lower-cased
      query occurring in the lower-cased text. */
  predicate Matches(text: string, search: SearchField) {
    match search
    case NoSearchField => true
    case SearchField(q) => q == "" || IndexOf(Lower(text), Lower(q)) > -1
  }

  /** Which column a characterisation is about. */
  datatype Column = Available(search: SearchField) | Chosen

  /** Whether an option belongs in a column. */
  predicate Admits(c: Column, o: Option) {
    match c
    case Available(search) => Matches(o.text, search)
    case Chosen => o.selected
  }

  /** Some row of `rows` carries correlation index `i`. */
  predicate Lists(rows: seq<Row>, i: nat) {
    exists k :: 0 <= k < |rows| && rows[k].index == i
  }

  /** `row` is the row of an option among the first `n` that column `c` admits. */
  ghost predicate RowAdmitted(store: seq<Option>, n: nat, c: Column, row: Row)
    requires n <= |store|
  {
    row.index < n && row == RowAt(store, row.index) && Admits(c, store[row.index])
  }

  ghost predicate AllAdmitted(store: seq<Option>, n: nat, c: Column, rows: seq<Row>)
    requires n <= |store|
  {
    forall k :: 0 <= k < |rows| ==> RowAdmitted(store, n, c, rows[k])
  }

  /** The rows follow store order, each option at most once. */
  predicate Increasing(rows: seq<Row>) {
    forall k, l :: 0 <= k < l < |rows| ==> rows[k].index < rows[l].index
  }

  /** Every option among the first `n` that column `c` admits has a row. */
  ghost predicate Covers(store: seq<Option>, n: nat, c: Column, rows: seq<Row>)
    requires n <= |store|
  {
    forall i :: 0 <= i < n && Admits(c, store[i]) ==> Lists(rows, i)
  }

  /** `rows` is exactly the column `c` of the first `n` options: each row is
      the row of an admitted option, the indices strictly increase, and
      every admitted option has a row. */
  ghost predicate IsColumn(store: seq<Option>, n: nat, c: Column, rows: seq<Row>)
    requires n <= |store|
  {
    AllAdmitted(store, n, c, rows) && Increasing(rows) && Covers(store, n, c, rows)
  }

  /** Appending the row of an admitted next option keeps a column a column. */
  lemma ExtendAdmitted(store: seq<Option>, n: nat, c: Column, rows: seq<Row>)
    requires 0 < n <= |store|
    requires IsColumn(store, n - 1, c, rows)
    requires Admits(c, store[n - 1])
    ensures IsColumn(store, n, c, rows + [RowAt(store, n - 1)])
  {
    var rows' := rows + [RowAt(store, n - 1)];
    forall k | 0 <= k < |rows'|
      ensures RowAdmitted(store, n, c, rows'[k])
    {
      if k < |rows| {
        assert rows'[k] == rows[k];
        assert RowAdmitted(store, n - 1, c, rows[k]);
      }
    }
    forall k, l | 0 <= k < l < |rows'|
      ensures rows'[k].index < rows'[l].index
    {
      assert RowAdmitted(store, n - 1, c, rows[k]);
      if l < |rows| {
        assert rows'[l] == rows[l];
      }
    }
    forall i | 0 <= i < n && Admits(c, store[i])
      ensures Lists(rows', i)
    {
      if i == n - 1 {
        assert rows'[|rows|].index == i;
      } else {
        assert Lists(rows, i);
        var k :| 0 <= k < |rows| && rows[k].index == i;
        assert rows'[k].index == i;
      }
    }
  }

  /** A next option the column does not admit leaves the column as it is. */
  lemma ExtendSkipped(store: seq<Option>, n: nat, c: Column, rows: seq<Row>)
    requires 0 < n <= |store|
    requires IsColumn(store, n - 1, c, rows)
    requires !Admits(c, store[n - 1])
    ensures IsColumn(store, n, c, rows)
  {
    forall k | 0 <= k < |rows|
      ensures RowAdmitted(store, n, c, rows[k])
    {
      assert RowAdmitted(store, n - 1, c, rows[k]);
    }
    forall i | 0 <= i < n && Admits(c, store[i])
      ensures Lists(rows, i)
    {
      assert i < n - 1;
    }
  }

  /** The loop of `refresh_select` over the first `n` options: each option
      adds its row to `available` when its text matches and to `chosen` when
      it is selected. */
  function Columns(store: seq<Option>, n: nat, search: SearchField): View
    requires n <= |store|
    decreases n
  {
    if n == 0 then View([], [])
    else
      var v := Columns(store, n - 1, search);
      var row := RowAt(store, n - 1);
      View(if Matches(row.text, search) then v.available + [row] else v.available,
           if row.selected then v.chosen + [row] else v.chosen)
  }

  /** After `n` iterations the loop has built exactly the two columns of the
      first `n` options. */
  lemma {:induction false} ColumnsCharacterised(store: seq<Option>, n: nat, search: SearchField)
    requires n <= |store|
    ensures IsColumn(store, n, Available(search), Columns(store, n, search).available)
    ensures IsColumn(store, n, Chosen, Columns(store, n, search).chosen)
    decreases n
  {
    if n > 0 {
      ColumnsCharacterised(store, n - 1, search);
      var v := Columns(store, n - 1, search);
      if Admits(Available(search), store[n - 1]) {
        ExtendAdmitted(store, n, Available(search), v.available);
      } else {
        ExtendSkipped(store, n, Available(search), v.available);
      }
      if Admits(Chosen, store[n - 1]) {
        ExtendAdmitted(store, n, Chosen, v.chosen);
      } else {
        ExtendSkipped(store, n, Chosen, v.chosen);
      }
    }
  }

  /** `refresh_select`: the available column lists exactly the options whose
      text matches the query and the chosen column exactly the selected
      options, each in store order. */
  function Project(store: seq<Option>, search: SearchField): (v: View)
    ensures IsColumn(store, |store|, Available(search), v.available)
    ensures IsColumn(store, |store|, Chosen, v.chosen)
  {
    ColumnsCharacterised(store, |store|, search);
    Columns(store, |store|, search)
  }

  /** The rows of a column of the first `n` options have indices below `n`. */
  lemma AdmittedBelow(store: seq<Option>, n: nat, c: Column, rows: seq<Row>)
    requires n <= |store|
    requires AllAdmitted(store, n, c, rows)
    ensures forall k :: 0 <= k < |rows| ==> rows[k].index < n
  {
    forall k | 0 <= k < |rows|
      ensures rows[k].index < n
    {
      assert RowAdmitted(store, n, c, rows[k]);
    }
  }

  /** A strictly increasing sequence of indices below `n` has at most `n` entries. */
  lemma {:induction false} IncreasingIndicesBounded(rows: seq<Row>, n: nat)
    requires Increasing(rows)
    requires forall k :: 0 <= k < |rows| ==> rows[k].index < n
    ensures |rows| <= n
    decreases |rows|
  {
    if |rows| > 0 {
      var last := rows[|rows| - 1].index;
      IncreasingIndicesBounded(rows[..|rows| - 1], last);
    }
  }

  /** An admitted last option is the last row of the column, and the rows
      before it are the column of the options before it. */
  lemma ShrinkAdmitted(store: seq<Option>, n: nat, c: Column, rows: seq<Row>)
    requires 0 < n <= |store|
    requires IsColumn(store, n, c, rows)
    requires Admits(c, store[n - 1])
    ensures |rows| > 0
    ensures rows[|rows| - 1] == RowAt(store, n - 1)
    ensures IsColumn(store, n - 1, c, rows[..|rows| - 1])
  {
    assert Lists(rows, n - 1);
    var k :| 0 <= k < |rows| && rows[k].index == n - 1;
    var last := |rows| - 1;
    assert RowAdmitted(store, n, c, rows[last]);
    assert rows[k].index <= rows[last].index;
    var prefix := rows[..last];
    forall j | 0 <= j < |prefix|
      ensures RowAdmitted(store, n - 1, c, prefix[j])
    {
      assert prefix[j] == rows[j];
      assert RowAdmitted(store, n, c, rows[j]);
      assert rows[j].index < rows[last].index;
    }
    forall i | 0 <= i < n - 1 && Admits(c, store[i])
      ensures Lists(prefix, i)
    {
      assert Lists(rows, i);
      var j :| 0 <= j < |rows| && rows[j].index == i;
      assert prefix[j].index == i;
    }
  }

  /** When the last option is not admitted, no row belongs to it. */
  lemma ShrinkNotAdmitted(store: seq<Option>, n: nat, c: Column, rows: seq<Row>)
    requires 0 < n <= |store|
    requires IsColumn(store, n, c, rows)
    requires !Admits(c, store[n - 1])
    ensures IsColumn(store, n - 1, c, rows)
  {
    forall k | 0 <= k < |rows|
      ensures RowAdmitted(store, n - 1, c, rows[k])
    {
      assert RowAdmitted(store, n, c, rows[k]);
    }
    forall i | 0 <= i < n - 1 && Admits(c, store[i])
      ensures Lists(rows, i)
    {
    }
  }

  /** A column is determined by the store: two sequences that are both
      column `c` of the first `n` options are equal. */
  lemma {:induction false} ColumnUnique(store: seq<Option>, n: nat, c: Column, a: seq<Row>, b: seq<Row>)
    requires n <= |store|
    requires IsColumn(store, n, c, a)
    requires IsColumn(store, n, c, b)
    ensures a == b
    decreases n
  {
    if n == 0 {
      AdmittedBelow(store, n, c, a);
      AdmittedBelow(store, n, c, b);
      IncreasingIndicesBounded(a, 0);
      IncreasingIndicesBounded(b, 0);
    } else {
      if Admits(c, store[n - 1]) {
        ShrinkAdmitted(store, n, c, a);
        ShrinkAdmitted(store, n, c, b);
        ColumnUnique(store, n - 1, c, a[..|a| - 1], b[..|b| - 1]);
        assert a == a[..|a| - 1] + [a[|a| - 1]];
        assert b == b[..|b| - 1] + [b[|b| - 1]];
      } else {
        ShrinkNotAdmitted(store, n, c, a);
        ShrinkNotAdmitted(store, n, c, b);
        ColumnUnique(store, n - 1, c, a, b);
      }
    }
  }

  /** The query never filters the chosen column. */
  lemma ChosenIgnoresQuery(store: seq<Option>, s1: SearchField, s2: SearchField)
    ensures Project(store, s1).chosen == Project(store, s2).chosen
  {
    ColumnUnique(store, |store|, Chosen, Project(store, s1).chosen, Project(store, s2).chosen);
  }

  /** Without a search field, or with an empty query, the available column
      lists every option in store order. */
  lemma AvailableShowsAll(store: seq<Option>, search: SearchField)
    requires search.NoSearchField? || search.query == ""
    ensures Project(store, search).available == seq(|store|, i requires 0 <= i < |store| => RowAt(store, i))
  {
    var all := seq(|store|, i requires 0 <= i < |store| => RowAt(store, i));
    forall i | 0 <= i < |store| && Admits(Available(search), store[i])
      ensures Lists(all, i)
    {
      assert all[i].index == i;
    }
    ColumnUnique(store, |store|, Available(search), Project(store, search).available, all);
  }

  /** The search filter is case-insensitive substring containment; an empty
      query matches every text. */
  lemma MatchesIffContains(text: string, q: string)
    ensures Matches(text, SearchField(q)) <==> exists k :: OccursAt(Lower(text), Lower(q), k)
  {
    IndexOfFindsOccurrence(Lower(text), Lower(q));
    if q == "" {
      assert OccursAt(Lower(text), Lower(q), 0);
    }
  }

  /** The correlation indices of a column, in column order. */
  function Indices(rows: seq<Row>): seq<nat> {
    seq(|rows|, k requires 0 <= k < |rows| => rows[k].index)
  }

  /** Which options are available depends only on their texts and the query,
      never on their selection or disabled state. */
  lemma {:induction false} AvailableIgnoresSelection(s1: seq<Option>, s2: seq<Option>, n: nat, search: SearchField)
    requires n <= |s1| == |s2|
    requires forall i :: 0 <= i < |s1| ==> s1[i].text == s2[i].text
    ensures Indices(Columns(s1, n, search).available) == Indices(Columns(s2, n, search).available)
    decreases n
  {
    if n > 0 {
      AvailableIgnoresSelection(s1, s2, n - 1, search);
      var a1 := Columns(s1, n - 1, search).available;
      var a2 := Columns(s2, n - 1, search).available;
      assert s1[n - 1].text == s2[n - 1].text;
      if Matches(s1[n - 1].text, search) {
        assert Indices(a1 + [RowAt(s1, n - 1)]) == Indices(a1) + [n - 1];
        assert Indices(a2 + [RowAt(s2, n - 1)]) == Indices(a2) + [n - 1];
      }
    }
  }

  /** Toggling option `i` moves it into or out of the chosen column, leaves
      every other option's membership alone, and does not change which
      options are available. */
  lemma ToggleMovesBetweenColumns(store: seq<Option>, i: nat, search: SearchField)
    requires Toggle(store, i).Flipped?
    ensures var before := Project(store, search);
            var after := Project(Toggle(store, i).store, search);
            && (Lists(after.chosen, i) <==> !store[i].selected)
            && (forall j :: 0 <= j < |store| && j != i ==>
                  (Lists(after.chosen, j) <==> Lists(before.chosen, j)))
            && Indices(after.available) == Indices(before.available)
  {
    var toggled := Toggle(store, i).store;
    AvailableIgnoresSelection(toggled, store, |store|, search);
  }
}

=== FILE: scenarios.dfy ===
/** Concrete runs of the model on small option lists. */
module Scenarios {
  import opened JsValues
  import opened Text
  import opened Store
  import opened Projection
  import opened Config
  import opened Control

  function PlainOption(text: string): Option {
    Option(text, text, false, false)
  }

  lemma AppleLacksAn()
    ensures !Matches("Apple", SearchField("an"))
  {
    assert Lower("an") == "an";
    assert Lower("Apple") == "apple";
    assert IndexOfFrom("apple", "an", 4) == -1;
    assert "apple"[3..5][0] == 'l';
    assert IndexOfFrom("apple", "an", 3) == -1;
    assert "apple"[2..4][0] == 'p';
    assert IndexOfFrom("apple", "an", 2) == -1;
    assert "apple"[1..3][0] == 'p';
    assert IndexOfFrom("apple", "an", 1) == -1;
    assert "apple"[0..2][1] == 'p';
  }

  lemma BananaHasAn()
    ensures Matches("Banana", SearchField("an"))
  {
    assert Lower("an") == "an";
    assert Lower("Banana") == "banana";
    assert OccursAt("banana", "an", 1);
    IndexOfFindsOccurrence("banana", "an");
  }

  lemma GrapeLacksAn()
    ensures !Matches("Grape", SearchField("an"))
  {
    assert Lower("an") == "an";
    assert Lower("Grape") == "grape";
    assert IndexOfFrom("grape", "an", 4) == -1;
    assert "grape"[3..5][0] == 'p';
    assert IndexOfFrom("grape", "an", 3) == -1;
    assert "grape"[2..4][0] == 'a';
    assert "grape"[2..4][1] == 'p';
    assert IndexOfFrom("grape", "an", 2) == -1;
    assert "grape"[1..3][0] == 'r';
    assert IndexOfFrom("grape", "an", 1) == -1;
    assert "grape"[0..2][0] == 'g';
  }

  /** Searching "an" among Apple, Banana and Grape leaves only Banana available
      and nothing chosen. */
  lemma SearchFilterExample()
    ensures var store := [PlainOption("Apple"), PlainOption("Banana"), PlainOption("Grape")];
            var v := Project(store, SearchField("an"));
            v.available == [RowAt(store, 1)] && v.chosen == []
  {
    var store := [PlainOption("Apple"), PlainOption("Banana"), PlainOption("Grape")];
    var search := SearchField("an");
    AppleLacksAn();
    BananaHasAn();
    GrapeLacksAn();
    assert Columns(store, 1, search) == View([], []);
    assert Columns(store, 2, search) == View([RowAt(store, 1)], []);
    assert Columns(store, 3, search) == View([RowAt(store, 1)], []);
  }

  /** Loading A, then appending B, keeps A at index 0; replacing with B leaves B alone. */
  lemma AppendExample()
    ensures var a := Descriptor("a", "A", Undefined, Undefined);
            var b := Descriptor("b", "B", Undefined, Undefined);
            var first := Load([], [a], false);
            && Load(first, [b], true) == [Option("a", "A", false, false), Option("b", "B", false, false)]
            && Load(first, [b], false) == [Option("b", "B", false, false)]
  {
  }

  const Red := Option("red", "Red", false, false)
  const Green := Option("green", "Green", true, false)
  const Blue := Option("blue", "Blue", false, true)

  lemma ColorsColumns()
    ensures var v := Project([Red, Green, Blue], SearchField(""));
            v.chosen == [RowAt([Red, Green, Blue], 1)] && |v.available| == 3
  {
    var store := [Red, Green, Blue];
    AvailableShowsAll(store, SearchField(""));
    assert Columns(store, 1, SearchField("")).chosen == [];
    assert Columns(store, 2, SearchField("")).chosen == [RowAt(store, 1)];
  }

  lemma ColorsColumnsAfterRed()
    ensures var store := [Red.(selected := true), Green, Blue];
            var v := Project(store, SearchField(""));
            v.chosen == [RowAt(store, 0), RowAt(store, 1)] && |v.available| == 3
  {
    var store := [Red.(selected := true), Green, Blue];
    AvailableShowsAll(store, SearchField(""));
    assert Columns(store, 1, SearchField("")).chosen == [RowAt(store, 0)];
    assert Columns(store, 2, SearchField("")).chosen == [RowAt(store, 0), RowAt(store, 1)];
  }

  /** The colour select right after `init` with no settings. */
  function ColorsReady(): State {
    Page("SELECT", true, [Red, Green, Blue]).(
      flagged := true, wrappers := 1, changeListeners := 1, search := SearchField(""),
      view := Project([Red, Green, Blue], SearchField("")), refreshes := 1)
  }

  lemma InitColors()
    ensures Init(Page("SELECT", true, [Red, Green, Blue]), NoSettings) == Returned(ColorsReady())
  {
  }

  lemma ClickRed()
    ensures var store := [Red.(selected := true), Green, Blue];
            Step(ColorsReady(), Click(Indexed(0))) ==
              ColorsReady().(options := store, view := Project(store, SearchField("")),
                             changeEvents := 1, refreshes := 2)
  {
    assert [Red, Green, Blue][0 := Red.(selected := true)] == [Red.(selected := true), Green, Blue];
  }

  /** Red, selected Green and disabled Blue: after `init` Green is chosen and
      all three are available; clicking Red chooses it too, listed before
      Green because the column follows store order, with one `change`;
      clicking Blue does nothing. */
  lemma EndToEndExample()
    ensures var st := Init(Page("SELECT", true, [Red, Green, Blue]), NoSettings).state;
            var clicked := Step(st, Click(Indexed(0)));
            && st.view.chosen == [RowAt([Red, Green, Blue], 1)]
            && |st.view.available| == 3
            && clicked.view.chosen == [RowAt(clicked.options, 0), RowAt(clicked.options, 1)]
            && |clicked.view.available| == 3
            && clicked.changeEvents == 1 && clicked.refreshes == 2
            && Step(clicked, Click(Indexed(2))) == clicked
  {
    InitColors();
    ColorsColumns();
    ClickRed();
    ColorsColumnsAfterRed();
  }
}

=== FILE: store.dfy ===
/** The option store: the native select's ordered options, how descriptor
    lists are loaded into it, and how one option's selection is toggled. */
module Store {
  import opened JsValues

  /** One `<option>` of the native select; `text` is its label (`label` is
      a Dafny keyword). Its position in the store is its correlation index
      with the rendered rows. */
  datatype Option = Option(value: string, text: string, selected: bool, disabled: bool)

  /** One element of the list handed to the loader: `value` and `label`
      (here `text`) are copied, `selected` and `disabled` may be any value or
      omitted. */
  datatype Descriptor = Descriptor(value: string, text: string, selected: JsValue, disabled: JsValue)

  /** The `<option>` built for one descriptor. */
  function FromDescriptor(d: Descriptor): Option {
    Option(d.value, d.text, Truthy(d.selected), Truthy(d.disabled))
  }

  /** `set_options`: without `append` the store is emptied first; the
      descriptors then become options appended in their own order. */
  function Load(store: seq<Option>, descriptors: seq<Descriptor>, append: bool): (r: seq<Option>)
    ensures |r| == (if append then |store| else 0) + |descriptors|
    ensures append ==> r[..|store|] == store
    ensures forall i :: 0 <= i < |descriptors| ==>
      var o := r[|r| - |descriptors| + i];
      && o.value == descriptors[i].value
      && o.text == descriptors[i].text
      && (o.selected <==> Truthy(descriptors[i].selected))
      && (o.disabled <==> Truthy(descriptors[i].disabled))
  {
    var added := seq(|descriptors|, i requires 0 <= i < |descriptors| => FromDescriptor(descriptors[i]));
    if append then store + added else added
  }

  /** Two appending loads are one appending load of both lists. */
  lemma LoadAppendTwice(store: seq<Option>, first: seq<Descriptor>, second: seq<Descriptor>)
    ensures Load(Load(store, first, true), second, true) == Load(store, first + second, true)
  {
    var lhs := Load(Load(store, first, true), second, true);
    var rhs := Load(store, first + second, true);
    assert |lhs| == |rhs|;
    forall i | 0 <= i < |lhs|
      ensures lhs[i] == rhs[i]
    {
      if i >= |store| + |first| {
        assert (first + second)[i - |store|] == second[i - |store| - |first|];
      } else if i >= |store| {
        assert (first + second)[i - |store|] == first[i - |store|];
      }
    }
  }

  /** A replacing load forgets the previous store entirely. */
  lemma LoadReplaceForgets(old1: seq<Option>, old2: seq<Option>, descriptors: seq<Descriptor>)
    ensures Load(old1, descriptors, false) == Load(old2, descriptors, false)
  {
  }

  /** What toggling one option did. */
  datatype Toggled =
    | Flipped(store: seq<Option>)  // the option's selection was inverted
    | Refused                      // the option is disabled: nothing happens
    | NoSuchOption                 // no option at that index: the lookup throws

  /** `toggle_option` on the option at index `i`. */
  function Toggle(store: seq<Option>, i: nat): (r: Toggled)
    ensures r.NoSuchOption? <==> i >= |store|
    ensures r.Refused? <==> i < |store| && store[i].disabled
    ensures r.Flipped? ==>
      && |r.store| == |store|
      && r.store[i].selected == !store[i].selected
      && r.store[i].(selected := store[i].selected) == store[i]
      && forall j :: 0 <= j < |store| && j != i ==> r.store[j] == store[j]
  {
    if i >= |store| then NoSuchOption
    else if store[i].disabled then Refused
    else Flipped(store[i := store[i].(selected := !store[i].selected)])
  }

  /** Toggling the same option twice restores the store. */
  lemma ToggleTwiceRestores(store: seq<Option>, i: nat)
    requires Toggle(store, i).Flipped?
    ensures Toggle(Toggle(store, i).store, i) == Flipped(store)
  {
    var once := Toggle(store, i).store;
    assert Toggle(once, i).store == store;
  }
}

=== FILE: text.dfy ===
/** The string operations the search filter relies on: lower-casing and `indexOf`. */
module Text {

  /** Lower-casing of one character, restricted to ASCII letters. */
  function LowerChar(c: char): char {
    if 'A' <= c <= 'Z' then (c as int + 32) as char else c
  }

  /** `s.toLowerCase()` on ASCII text. */
  function Lower(s: string): string {
    seq(|s|, i requires 0 <= i < |s| => LowerChar(s[i]))
  }

  /** `q` occurs in `s` starting at position `k`. */
  predicate OccursAt(s: string, q: string, k: int) {
    0 <= k && k + |q| <= |s| && s[k..k + |q|] == q
  }

  /** The search behind `s.indexOf(q)`: the first position at or after
      `from` where `q` occurs in `s`, or -1 when there is none. It agrees with
      `s.indexOf(q, from)` only for `from <= |s|`, since JavaScript clamps a
      larger start to the length. */
  function IndexOfFrom(s: string, q: string, from: nat): (r: int)
    ensures r == -1 || (from <= r && OccursAt(s, q, r))
    ensures forall k :: from <= k && (r == -1 || k < r) ==> !OccursAt(s, q, k)
    decreases |s| - from
  {
    if from + |q| > |s| then -1
    else if s[from..from + |q|] == q then from
    else IndexOfFrom(s, q, from + 1)
  }

  /** `s.indexOf(q)`. */
  function IndexOf(s: string, q: string): int {
    IndexOfFrom(s, q, 0)
  }

  /** `indexOf` answers -1 exactly when `q` occurs nowhere in `s`. */
  lemma IndexOfFindsOccurrence(s: string, q: string)
    ensures IndexOf(s, q) > -1 <==> exists k :: OccursAt(s, q, k)
  {
    if IndexOf(s, q) > -1 {
      assert OccursAt(s, q, IndexOf(s, q));
    }
  }
}
